=== FILE: README.md ===
# platforms-scopes change detection, modelled in Dafny

`app.py` keeps a local copy of the bug-bounty scope data published for six
platforms (one JSON list of program records each) and of two flat text lists
(`domains`, `wildcards`). Each run compares the cached copy with the fetched
one, posts a message for what it considers a change, and writes the fetched
copy back. This project models the pure part of that run:

- `PyJson` — decoded JSON values, with Python's `==` (`PyEq`: dicts compare as
  maps, lists by position, `True == 1`), truthiness and dict lookup. Records
  keep their keys in insertion order.
- `ProgramDiff` — `diff_in_programs`: the zip of `new.keys()`, `old.values()`,
  `new.values()` that returns the first positional mismatch and the `name`
  value passed so far.
- `ProgramPass` — the per-platform body of `update_programs_database`: the
  `DeepDiff` guard (a function parameter), the zip over both record lists,
  the notifications, the save.
- `Notification` — the dispatch branch of `send_notification`.
- `Lines`, `Domains` — `'\n'.join`, `str.splitlines`, `str.split('\n')`, the
  one-sided set difference and one list's update in `update_domains`.
- `Platforms` — `get_programs` and `get_programs_link`.

What `app.py` does, and the model with it: it reports only the first
positional mismatch per record, saves whenever `DeepDiff` sees a difference
and no record raised, rewrites the domain files on every run, and reports
`cache - upstream` (entries that vanished upstream).

Quirks of the code that the model pins down as lemmas:

- values are paired by position, so a record whose keys were reordered can
  report an unchanged attribute (`ReorderedKeysMisreport`);
- keys past the shorter record are never looked at (`TrailingFieldsIgnored`);
- a change at a position before the `name` key carries the empty name and
  is never posted (`ChangeBeforeNameDropped`);
- upstream text with `\r\n` line ends is compared with `\r` kept but cached
  with it stripped, so it is reported again on every run
  (`CarriageReturnNeverSettles`).

## Model

| member | source | states |
|---|---|---|
| `PyJson.PyEq` | app.py:77-81 | Python `==` on decoded JSON: equal values are of the same kind (numbers and booleans mixing) and agree on truthiness |
| `PyJson.Truthy` | app.py:104-108 | a value is falsy exactly when it is `None`, `False`, `0`, `""`, `[]` or `{}` |
| `PyJson.PyEqReflexive` | app.py:77 | Python `==` is reflexive on any decoded JSON value (every object with distinct keys) |
| `PyJson.SameEntriesIsPyEq` | app.py:77 | two records holding the same key/value pairs, in any key order, are equal as dicts |
| `ProgramDiff.ScanFrom` | app.py:78-84 | the scan from position `i` finds nothing exactly when every position from `i` below the shorter record's length holds equal values |
| `ProgramDiff.DiffInPrograms` | app.py:75-84 | equal values give `None`; the call raises exactly when the values differ and one of them is not a dict; for dicts the result is `None` exactly when they are equal or agree at every position below the shorter length |
| `ProgramDiff.NameSeenAfterNameKey` | app.py:76-80 | when the `name` key sits at or before the changed position (the changed key itself included), the reported `program_name` is the new record's `name` value |
| `ProgramDiff.NameSeenBeforeNameKey` | app.py:76-80 | when no key up to the changed position is `name`, the reported `program_name` is the initial `""` |
| `ProgramDiff.ScanFindsFirstMismatch` | app.py:78-84 | from position `i`, with the name tracked so far, the scan returns the key, new value and name of the first mismatching position |
| `ProgramDiff.ScanResultPosition` | app.py:78-84 | whatever the scan returns is the key and new value of a mismatching position, every earlier position agreeing |
| `ProgramDiff.DiffReportsFirstMismatch` | app.py:75-84 | two unequal dicts produce the change at their first positional mismatch: the new record's key there, its new value, and the name seen up to it |
| `ProgramDiff.DiffResultIsFirstMismatch` | app.py:75-84 | every reported change is that of the first positional mismatch, at a position below both records' lengths |
| `ProgramDiff.SameEntriesNoChange` | app.py:77 | records equal as key-to-value maps in any key order report no change |
| `ProgramDiff.TrailingFieldsIgnored` | app.py:77-78 | extra fields at the end make the dicts unequal yet report no change, in either direction |
| `ProgramDiff.ReorderedKeysMisreport` | app.py:78-84 | with the keys reordered, the attribute `b` is reported changed although its value is the same in both records |
| `Notification.Classify` | app.py:103-111 | nothing is posted exactly for a program change with a falsy `program_name` or an empty domain set; otherwise a message of the argument's own kind carrying its values |
| `Notification.Notify` | app.py:100-111 | at most one message per argument; every message comes from an argument that classifies to it, and every such argument's message is posted |
| `Notification.NotifyAppend` | app.py:103-111 | the arguments are handled one by one in order: the messages for `a + b` are those for `a` followed by those for `b` |
| `Notification.ChangeBeforeNameDropped` | app.py:76-104 | a first mismatch before the `name` key is returned by the diff but posts nothing |
| `ProgramPass.ZipResponses` | app.py:32-35 | the zip loop yields at most as many changes as the shorter record list has records |
| `ProgramPass.ZipResponsesSound` | app.py:32-35 | the loop raises exactly when some aligned pair makes the diff raise, and each change it yields is the diff of one aligned pair |
| `ProgramPass.ZipResponsesComplete` | app.py:32-35 | when the loop does not raise, the change of every aligned pair that has one is yielded |
| `ProgramPass.ZipResponsesAppend` | app.py:26-36 | changes come out in record order, and the loop stops at the first record pair that raises |
| `ProgramPass.UpdateProgram` | app.py:30-38 | the new snapshot is saved, unchanged, exactly when `DeepDiff` reports a difference and no aligned pair raises; without a difference nothing is found or posted; only truthy-named program messages are posted, and every found change with a truthy name is posted; each change comes from an aligned pair, and when the snapshot is saved every aligned pair that reports a change has it among the found changes; when `DeepDiff` differs the found changes are those of the zip pass (in record order, up to the first pair that raises, by `ZipResponsesAppend`), and the messages are `send_notification` on them in that order |
| `Lines.SplitNewline` | app.py:124 | `split('\n')` yields at least one piece and no piece holds a newline |
| `Lines.SplitLines` | app.py:72 | no line returned by `splitlines` holds a line-break character |
| `Lines.JoinLines` | app.py:64 | `'\n'.join`: the text starts with the first line, a newline follows it when more lines come, and one line joins to itself |
| `Lines.SplitNewlineJoin` | app.py:124 | splitting on newlines undoes the join of a non-empty list of newline-free lines |
| `Lines.JoinSplitNewline` | app.py:124 | joining the pieces of `split('\n')` with newlines gives the text back |
| `Lines.SplitLinesCrLf` | app.py:72 | `splitlines` takes `\r\n` after a break-free line as one break: that line, then the lines of the rest, with no empty line between |
| `Lines.SplitLinesJoin` | app.py:72 | `splitlines` undoes the join of break-free lines, except that a final empty line is lost |
| `Domains.ReadCache` | app.py:70-72 | cached entries never contain a line-break character |
| `Domains.ReadUpstream` | app.py:122-124 | the upstream set is never empty and its entries contain no newline |
| `Domains.DomainsDiff` | app.py:49 | the diff is the cached entries missing upstream: a subset of the cache, disjoint from upstream, empty exactly when upstream covers the cache |
| `Domains.UpdateDomainList` | app.py:46-51 | at most one message, posted exactly when some cached entry is missing upstream, and that message is `cache - upstream` itself; the written text splits back into exactly the upstream set |
| `Domains.CacheRoundTrip` | app.py:63-72 | a set of non-empty break-free entries written in any iteration order is read back as the same set |
| `Domains.DomainListSettles` | app.py:46-51 | with break-free upstream entries, the cache after an update holds the upstream set (less a last-written empty entry) and a second update with the same upstream text posts nothing |
| `Domains.DiffReportsRemovedOnly` | app.py:49 | cache `{a, b}` against upstream `{a, c}` reports `{b}`, not the new `c` |
| `Domains.CarriageReturnNeverSettles` | app.py:46-51 | for any non-empty break-free domain `d`, upstream `d\r\n` splits into `{d\r, ""}` and is written back as `d\r\n`, which the cache reads as `{d}`: the first update posts nothing, the second posts `{d}` and rewrites the same text |
| `Platforms.GetPrograms` | app.py:131-132 | six distinct, non-empty platform names |
| `Platforms.FillLinks` | app.py:95-96 | the loop sets each listed platform's URL to the formatted prefix and leaves other keys alone |
| `Platforms.GetProgramsLink` | app.py:87-97 | exactly the six platforms have a URL, each the formatted raw-data URL, none left as the empty placeholder |
| `Platforms.ProgramLinkInjective` | app.py:94-96 | distinct platforms get distinct URLs |

## Left out

- Network I/O: `requests.get` (`github_platform_scopes`, `github_domains_files`), the webhook `requests.post` and `config`. Fetched texts and decoded snapshots are parameters.
- File I/O: opening, reading and writing the cache files, `save_changes`, `os.path.exists`, `is_directory_exists`, `is_files_exists`. The cache texts are parameters and the written text or saved snapshot is a result. `main` tests the function object `is_files_exists` without calling it, so no existence check guards the run; that check is not modelled.
- `DeepDiff` is a foreign library: its verdict is the function parameter `changed` of `UpdateProgram`, with no assumption about it.
- A snapshot file that decodes to something other than a JSON array (`zip` would then walk a dict's keys or a string's characters) is not modelled: the record lists are sequences of JSON values.
- `json.loads` / `json.dumps`: snapshots are given decoded. JSON numbers are integers only; floats (and `NaN`) are not modelled.
- The message texts and Python `str()` of attributes and values (lines 101-110): the model keeps the key and the raw value.
- Logging and `datetime`.
- Exceptions other than the `AttributeError` that `diff_in_programs` raises on a non-dict value (a failed fetch, a parse error, a failed post): not modelled. The `try` at lines 26-40 only shows up as `raised` ending the pass without a save.
- `main`, the loop over platforms in `update_programs_database` and the two calls in `update_domains`: they only sequence `UpdateProgram` and `UpdateDomainList` per key, which are modelled.
- Python set iteration order is the parameter `order` of `UpdateDomainList`, required to list the upstream set once each.
- Text-mode newline translation and character decoding of the cache file are not modelled; the cache text is the decoded text.
- `ProgramPass.ZipResponsesSound`: for a pass that raised, it says which changes can appear but not that they are exactly those before the raising pair; `ProgramPass.ZipResponsesAppend` gives that order.

=== FILE: domains.dfy ===
/** `update_domains` for one list (`domains` or `wildcards`): read the cached
    lines, compare them with the fetched ones, notify, write the fetched
    lines back. */
module Domains {
  import opened Lines
  import opened Notification

  /** `read_file`: the set of lines of the cached text. */
  function ReadCache(text: string): (s: set<string>)
    ensures forall x :: x in s ==> NoBreaks(x)
  {
    set x | x in SplitLines(text)
  }

  /** `github_domains_files` once the text is fetched: the set of pieces of
      the upstream text between newlines; never empty. */
  function ReadUpstream(text: string): (s: set<string>)
    ensures s != {}
    ensures forall x :: x in s ==> NoNewlines(x)
  {
    var pieces := SplitNewline(text);
    var s := set x | x in pieces;
    assert pieces[0] in s;
    s
  }

  /** `cached - upstream`: the entries that disappeared upstream. Entries new
      upstream are not reported. */
  function DomainsDiff(cached: set<string>, upstream: set<string>): (d: set<string>)
    ensures d <= cached
    ensures d !! upstream
    ensures forall x :: x in cached && x !in upstream ==> x in d
    ensures d == {} <==> cached <= upstream
  {
    cached - upstream
  }

  /** `order` lists every element of `s` exactly once: the order in which a
      Python set happens to iterate. */
  predicate IsEnumeration(order: seq<string>, s: set<string>) {
    && (forall i :: 0 <= i < |order| ==> order[i] in s)
    && (forall x :: x in s ==> x in order)
    && (forall i, j :: 0 <= i < j < |order| ==> order[i] != order[j])
  }

  /** What one list's update posts and what it writes to the cache file. */
  datatype DomainRun = DomainRun(notices: seq<Notice>, written: string)

  /** One list of `update_domains`, given the cached text, the fetched text
      and the iteration order of the fetched set. A domains message is posted
      exactly when some cached entry is missing upstream; the cache is
      rewritten with the upstream entries either way. */
  function UpdateDomainList(cachedText: string, upstreamText: string, order: seq<string>): (r: DomainRun)
    requires IsEnumeration(order, ReadUpstream(upstreamText))
    ensures |r.notices| <= 1
    ensures r.notices == [] <==> ReadCache(cachedText) <= ReadUpstream(upstreamText)
    ensures forall n :: n in r.notices ==>
      && n.DomainsNotice?
      && n.entries != {}
      && n.entries <= ReadCache(cachedText)
      && n.entries !! ReadUpstream(upstreamText)
    ensures forall n :: n in r.notices ==>
      n == DomainsNotice(DomainsDiff(ReadCache(cachedText), ReadUpstream(upstreamText)))
    ensures ReadUpstream(r.written) == ReadUpstream(upstreamText)
  {
    var cached := ReadCache(cachedText);
    var upstream := ReadUpstream(upstreamText);
    var notices := Notify([DomainsArg(DomainsDiff(cached, upstream))]);
    var written := JoinLines(order);
    SplitNewlineJoin(order);
    assert (set x | x in order) == upstream;
    DomainRun(notices, written)
  }

  /** A set of non-empty, break-free entries is read back from the cache
      exactly as it was written, whatever the iteration order. */
  lemma CacheRoundTrip(order: seq<string>, s: set<string>)
    requires IsEnumeration(order, s)
    requires forall x :: x in s ==> x != "" && NoBreaks(x)
    ensures ReadCache(JoinLines(order)) == s
  {
    SplitLinesJoin(order);
  }

  /** Without line breaks other than the newlines it is split on, the
      upstream list is what the cache holds after the update (less an empty
      entry that was written last), so an immediate second update with the
      same upstream text posts nothing. */
  lemma DomainListSettles(cachedText: string, upstreamText: string, order: seq<string>)
    requires IsEnumeration(order, ReadUpstream(upstreamText))
    requires forall x :: x in ReadUpstream(upstreamText) ==> NoBreaks(x)
    ensures var r := UpdateDomainList(cachedText, upstreamText, order);
            && ReadUpstream(upstreamText) - {""} <= ReadCache(r.written) <= ReadUpstream(upstreamText)
            && UpdateDomainList(r.written, upstreamText, order).notices == []
  {
    SplitLinesJoin(order);
    var kept := if order != [] && order[|order| - 1] == "" then order[..|order| - 1] else order;
    assert forall x :: x in kept ==> x in order;
    forall x | x in ReadUpstream(upstreamText) && x != ""
      ensures x in kept
    {
      var i :| 0 <= i < |order| && order[i] == x;
      assert kept[i] == x;
    }
  }

  /** Entries new upstream go unreported: of `{a, b}` cached and `{a, c}`
      fetched, only the vanished `b` is posted. */
  lemma DiffReportsRemovedOnly()
    ensures DomainsDiff({"a.com", "b.com"}, {"a.com", "c.com"}) == {"b.com"}
  {
  }

  /** Upstream text with `\r\n` line ends never settles: `split('\n')` keeps
      the `\r` that `splitlines` strips from the cache, so every update after
      the first posts the same entry again. */
  lemma CarriageReturnNeverSettles(d: string)
    requires d != "" && NoBreaks(d)
    ensures && IsEnumeration([d + "\r", ""], ReadUpstream(d + "\r\n"))
            && var first := UpdateDomainList("", d + "\r\n", [d + "\r", ""]);
            var second := UpdateDomainList(first.written, d + "\r\n", [d + "\r", ""]);
            && first.notices == []
            && first.written == d + "\r\n"
            && second.notices == [DomainsNotice({d})]
            && second.written == first.written
  {
    CrLfFirstUpdate(d);
    CrLfSecondUpdate(d);
  }

  /** `split('\n')` on a `\r\n`-terminated line keeps the `\r` and adds an
      empty last piece. */
  lemma UpstreamWithCarriageReturn(d: string)
    requires NoNewlines(d)
    ensures ReadUpstream(d + "\r\n") == {d + "\r", ""}
  {
    var a := d + "\r";
    assert NoNewlines(a) by {
      assert forall i :: 0 <= i < |d| ==> a[i] == d[i];
    }
    SplitNewlinePlain(a, "\n");
    assert a + "\n" == d + "\r\n";
    assert "\n"[1..] == "";
    assert SplitNewline("\n") == ["", ""];
    assert a + "" == a;
  }

  /** `splitlines` drops the whole `\r\n`, leaving one entry. */
  lemma CacheStripsCarriageReturn(d: string)
    requires NoBreaks(d)
    ensures ReadCache(d + "\r\n") == {d}
  {
    SplitLinesCrLf(d, "");
    assert d + "\r\n" + "" == d + "\r\n";
    assert SplitLines("") == [];
  }

  lemma CrLfEnumeration(d: string)
    requires NoBreaks(d)
    ensures IsEnumeration([d + "\r", ""], ReadUpstream(d + "\r\n"))
  {
    UpstreamWithCarriageReturn(d);
  }

  /** Against an empty cache nothing is posted, and the joined upstream
      pieces give back the upstream text. */
  lemma CrLfFirstUpdate(d: string)
    requires NoBreaks(d)
    ensures && IsEnumeration([d + "\r", ""], ReadUpstream(d + "\r\n"))
            && var first := UpdateDomainList("", d + "\r\n", [d + "\r", ""]);
            first.notices == [] && first.written == d + "\r\n"
  {
    CrLfEnumeration(d);
    assert JoinLines([d + "\r", ""]) == d + "\r" + "\n" + "";
    assert SplitLines("") == [];
  }

  /** Against the cache the first update wrote, the stripped entry is missing
      upstream and is posted. */
  lemma CrLfSecondUpdate(d: string)
    requires d != "" && NoBreaks(d)
    ensures && IsEnumeration([d + "\r", ""], ReadUpstream(d + "\r\n"))
            && var second := UpdateDomainList(d + "\r\n", d + "\r\n", [d + "\r", ""]);
            second.notices == [DomainsNotice({d})]
  {
    CrLfEnumeration(d);
    CacheStripsCarriageReturn(d);
    var second := UpdateDomainList(d + "\r\n", d + "\r\n", [d + "\r", ""]);
    assert |d + "\r"| != |d|;
    assert d !in {d + "\r", ""};
    assert DomainsDiff({d}, {d + "\r", ""}) == {d};
    UpstreamWithCarriageReturn(d);
    assert second.notices != [];
    assert second.notices[0] in second.notices;
    assert second.notices[0] == DomainsNotice({d});
    assert second.notices == [second.notices[0]];
  }
}

=== FILE: lines.dfy ===
/** The three text operations the domain lists go through: `'\n'.join`
    when the cache is written, `str.splitlines` when it is read back, and
    `str.split('\n')` on the fetched upstream text. */
module Lines {

  /** The characters `str.splitlines` breaks on. `\r\n` also counts as a
      single break. */
  predicate IsLineBreak(c: char) {
    c in {'\n', '\r', '\U{000B}', '\U{000C}', '\U{001C}', '\U{001D}', '\U{001E}',
          '\U{0085}', '\U{2028}', '\U{2029}'}
  }

  predicate NoBreaks(s: string) {
    forall i :: 0 <= i < |s| ==> !IsLineBreak(s[i])
  }

  predicate NoNewlines(s: string) {
    forall i :: 0 <= i < |s| ==> s[i] != '\n'
  }

  /** `'\n'.join(lines)`. */
  function JoinLines(lines: seq<string>): (text: string)
    ensures |lines| >= 1 ==> lines[0] <= text
    ensures |lines| >= 2 ==> |text| > |lines[0]| && text[|lines[0]|] == '\n'
    ensures |lines| == 1 ==> text == lines[0]
  {
    if |lines| == 0 then ""
    else if |lines| == 1 then lines[0]
    else lines[0] + "\n" + JoinLines(lines[1..])
  }

  /** `text.split('\n')`: the pieces between newlines, always at least one. */
  function SplitNewline(text: string): (pieces: seq<string>)
    ensures |pieces| >= 1
    ensures forall i :: 0 <= i < |pieces| ==> NoNewlines(pieces[i])
  {
    if text == [] then [""]
    else
      var rest := SplitNewline(text[1..]);
      if text[0] == '\n' then [""] + rest
      else [[text[0]] + rest[0]] + rest[1..]
  }

  /** Length of the first line: the index of the first break, or the length
      of the text when there is none. */
  function LineEnd(text: string): (j: nat)
    ensures j <= |text| && NoBreaks(text[..j])
    ensures j < |text| ==> IsLineBreak(text[j])
  {
    if text == [] || IsLineBreak(text[0]) then 0
    else
      var e := 1 + LineEnd(text[1..]);
      assert text[..e] == [text[0]] + text[1..][..e - 1];
      e
  }

  /** `text.splitlines()`: the lines of the text without their breaks; an
      empty text has no lines and a final break opens no empty line. */
  function SplitLines(text: string): (lines: seq<string>)
    ensures forall i :: 0 <= i < |lines| ==> NoBreaks(lines[i])
    decreases |text|
  {
    if text == [] then []
    else
      var j := LineEnd(text);
      if j == |text| then [text]
      else if text[j] == '\r' && j + 1 < |text| && text[j + 1] == '\n' then
        [text[..j]] + SplitLines(text[j + 2..])
      else
        [text[..j]] + SplitLines(text[j + 1..])
  }

  /** Splitting on newlines undoes any join of newline-free lines. */
  lemma {:induction false} SplitNewlineJoin(lines: seq<string>)
    requires |lines| >= 1
    requires forall i :: 0 <= i < |lines| ==> NoNewlines(lines[i])
    ensures SplitNewline(JoinLines(lines)) == lines
  {
    if |lines| == 1 {
      SplitNewlinePlain(lines[0], "");
      assert lines[0] + "" == lines[0];
    } else {
      SplitNewlineJoin(lines[1..]);
      SplitNewlinePlain(lines[0], "\n" + JoinLines(lines[1..]));
      assert lines[0] + "\n" + JoinLines(lines[1..]) == lines[0] + ("\n" + JoinLines(lines[1..]));
      var tail := "\n" + JoinLines(lines[1..]);
      assert tail[0] == '\n' && tail[1..] == JoinLines(lines[1..]);
      assert SplitNewline(tail) == [""] + lines[1..];
      assert lines[0] + "" == lines[0];
      assert lines == [lines[0]] + lines[1..];
    }
  }

  /** Newline-free text in front of `rest` extends the first piece of `rest`. */
  lemma {:induction false} SplitNewlinePlain(a: string, rest: string)
    requires NoNewlines(a)
    ensures var p := SplitNewline(rest);
            SplitNewline(a + rest) == [a + p[0]] + p[1..]
  {
    if a != [] {
      assert (a + rest)[1..] == a[1..] + rest;
      SplitNewlinePlain(a[1..], rest);
      assert [a[0]] + (a[1..] + SplitNewline(rest)[0]) == a + SplitNewline(rest)[0];
    } else {
      var p := SplitNewline(rest);
      assert a + rest == rest;
      assert a + p[0] == p[0];
      assert [p[0]] + p[1..] == p;
    }
  }

  /** Joining the pieces of a split gives back the text: nothing is lost
      reading the upstream text. */
  lemma {:induction false} JoinSplitNewline(text: string)
    ensures JoinLines(SplitNewline(text)) == text
  {
    if text != [] {
      var rest := SplitNewline(text[1..]);
      JoinSplitNewline(text[1..]);
      if text[0] == '\n' {
        assert ([""] + rest)[1..] == rest;
        assert text == "\n" + text[1..];
      } else if |rest| == 1 {
        assert text == [text[0]] + text[1..];
      } else {
        var pieces := [[text[0]] + rest[0]] + rest[1..];
        assert pieces[1..] == rest[1..];
        assert JoinLines(rest) == rest[0] + "\n" + JoinLines(rest[1..]);
        assert text == [text[0]] + text[1..];
      }
    }
  }

  /** `splitlines` undoes a join of break-free lines, except that a final
      empty line is lost: the join then ends in a newline, which opens no
      line. */
  lemma {:induction false} SplitLinesJoin(lines: seq<string>)
    requires forall i :: 0 <= i < |lines| ==> NoBreaks(lines[i])
    ensures SplitLines(JoinLines(lines)) ==
      if lines != [] && lines[|lines| - 1] == "" then lines[..|lines| - 1] else lines
  {
    if |lines| == 1 {
      LineEndPlain(lines[0], "");
      assert lines[0] + "" == lines[0];
    } else if |lines| > 1 {
      var a := lines[0];
      var rest := JoinLines(lines[1..]);
      var text := a + "\n" + rest;
      LineEndPlain(a, "\n" + rest);
      assert a + ("\n" + rest) == text;
      assert text[..|a|] == a;
      assert text[|a| + 1..] == rest;
      SplitLinesJoin(lines[1..]);
      assert lines == [a] + lines[1..];
      assert lines[..|lines| - 1] == [a] + lines[1..][..|lines| - 2];
    }
  }

  /** The first line ends where break-free text `a` ends, when `rest` starts
      with a break or is empty. */
  lemma {:induction false} LineEndPlain(a: string, rest: string)
    requires NoBreaks(a)
    requires rest != [] ==> IsLineBreak(rest[0])
    ensures LineEnd(a + rest) == |a|
  {
    if a != [] {
      assert (a + rest)[1..] == a[1..] + rest;
      LineEndPlain(a[1..], rest);
    } else {
      assert a + rest == rest;
    }
  }

  /** `splitlines` takes `\r\n` as one break: the line before it ends there
      and the next line starts right after the `\n`, with no empty line
      between. */
  lemma SplitLinesCrLf(a: string, rest: string)
    requires NoBreaks(a)
    ensures SplitLines(a + "\r\n" + rest) == [a] + SplitLines(rest)
  {
    var text := a + "\r\n" + rest;
    assert text == a + ("\r\n" + rest);
    LineEndPlain(a, "\r\n" + rest);
    assert text[..|a|] == a;
    assert text[|a|] == '\r' && text[|a| + 1] == '\n';
    assert text[|a| + 2..] == rest;
  }
}

=== FILE: notification.dfy ===
/** The dispatch branch of `send_notification`: which argument dicts lead to
    a webhook post, and of which kind. The post itself is not modelled. */
module Notification {
  import opened Wrappers
  import opened PyJson
  import opened ProgramDiff

  /** The two dict shapes handed to `send_notification`: a change returned by
      `diff_in_programs`, or `{'domains-changes': <set>}`. */
  datatype Arg = ProgramArg(change: Change) | DomainsArg(entries: set<string>)

  /** The message kinds posted to the webhook, with the values formatted into
      them. */
  datatype Notice =
    | ProgramNotice(programName: Json, attribute: string, newValue: Json)
    | DomainsNotice(entries: set<string>)

  /** One iteration of the loop over `args`: a program message when
      `program_name` is truthy, else a domains message when `domains-changes`
      is a non-empty set, else nothing. A dict lacking a key answers `None`
      to `.get`, which is falsy. */
  function Classify(arg: Arg): (r: Option<Notice>)
    ensures r.None? <==>
      || (arg.ProgramArg? && !Truthy(arg.change.programName))
      || (arg.DomainsArg? && arg.entries == {})
    ensures r.Some? ==> (r.value.ProgramNotice? <==> arg.ProgramArg?)
    ensures r.Some? && arg.ProgramArg? ==>
      r.value == ProgramNotice(arg.change.programName, arg.change.attribute, arg.change.newValue)
    ensures r.Some? && arg.DomainsArg? ==> r.value == DomainsNotice(arg.entries)
  {
    match arg
    case ProgramArg(c) =>
      if Truthy(c.programName) then Some(ProgramNotice(c.programName, c.attribute, c.newValue))
      else None
    case DomainsArg(d) =>
      if d != {} then Some(DomainsNotice(d)) else None
  }

  /** `send_notification(*args)`: the messages posted, in argument order. */
  function Notify(args: seq<Arg>): (r: seq<Notice>)
    ensures |r| <= |args|
    ensures forall n :: n in r ==> exists a :: a in args && Classify(a) == Some(n)
    ensures forall a :: a in args && Classify(a).Some? ==> Classify(a).value in r
  {
    if args == [] then []
    else
      var rest := Notify(args[1..]);
      assert forall a :: a in args[1..] ==> a in args;
      match Classify(args[0])
      case Some(n) => [n] + rest
      case None => rest
  }

  /** Posting for two argument lists in a row posts the messages of the
      first, then those of the second: messages keep argument order. */
  lemma {:induction false} NotifyAppend(a: seq<Arg>, b: seq<Arg>)
    ensures Notify(a + b) == Notify(a) + Notify(b)
  {
    if a != [] {
      assert (a + b)[0] == a[0];
      assert (a + b)[1..] == a[1..] + b;
      NotifyAppend(a[1..], b);
    } else {
      assert a + b == b;
    }
  }

  /** A single argument posts its own message, or nothing. */
  lemma NotifySingle(arg: Arg)
    ensures Notify([arg]) == if Classify(arg).Some? then [Classify(arg).value] else []
  {
    assert [arg][1..] == [];
  }

  /** A change whose first positional mismatch comes before the record's
      `name` key carries the initial empty name, so nothing is posted for it. */
  lemma ChangeBeforeNameDropped(oldRec: Record, newRec: Record, k: nat)
    requires DistinctKeys(newRec)
    requires !PyEq(Obj(oldRec), Obj(newRec))
    requires IsFirstMismatch(oldRec, newRec, k)
    requires forall p :: 0 <= p <= k ==> newRec[p].key != "name"
    ensures var r := DiffInPrograms(Obj(oldRec), Obj(newRec));
            && r.Success? && r.value.Some?
            && r.value.value.attribute == newRec[k].key
            && Classify(ProgramArg(r.value.value)) == None
  {
    DiffReportsFirstMismatch(oldRec, newRec, k);
    NameSeenBeforeNameKey(newRec, k);
  }
}

=== FILE: platforms.dfy ===
/** The fixed platform list and the raw-data URL of each platform's
    snapshot. */
module Platforms {

  /** `get_programs()`: the six tracked platforms, in processing order. */
  function GetPrograms(): (ps: seq<string>)
    ensures |ps| == 6
    ensures forall i, j :: 0 <= i < j < |ps| ==> ps[i] != ps[j]
    ensures forall i :: 0 <= i < |ps| ==> ps[i] != ""
  {
    ["bugcrowd", "hackerone", "federacy", "hackenproof", "intigriti", "yeswehack"]
  }

  const RawDataPrefix: string := "https://raw.githubusercontent.com/arkadiyt/bounty-targets-data/master/data/"
  const DataSuffix: string := "_data.json"

  /** `prefix_url.format(program)`. */
  function ProgramLink(program: string): string {
    RawDataPrefix + program + DataSuffix
  }

  /** The dict `urls` starts from: every platform with an empty URL. */
  function PlaceholderLinks(): map<string, string> {
    map["bugcrowd" := "", "hackerone" := "", "federacy" := "",
        "hackenproof" := "", "intigriti" := "", "yeswehack" := ""]
  }

  /** `for program in programs: urls[program] = prefix_url.format(program)`. */
  function FillLinks(urls: map<string, string>, programs: seq<string>): (r: map<string, string>)
    ensures r.Keys == urls.Keys + (set p | p in programs)
    ensures forall p :: p in programs ==> r[p] == ProgramLink(p)
    ensures forall k :: k in urls && k !in programs ==> r[k] == urls[k]
    decreases |programs|
  {
    if programs == [] then urls
    else FillLinks(urls[programs[0] := ProgramLink(programs[0])], programs[1..])
  }

  /** `get_programs_link()`: each platform's URL, no placeholder left. */
  function GetProgramsLink(): (links: map<string, string>)
    ensures links.Keys == set p | p in GetPrograms()
    ensures forall p :: p in links ==> links[p] == ProgramLink(p) && links[p] != ""
  {
    FillLinks(PlaceholderLinks(), GetPrograms())
  }

  /** Distinct platforms fetch distinct URLs. */
  lemma ProgramLinkInjective(p: string, q: string)
    requires ProgramLink(p) == ProgramLink(q)
    ensures p == q
  {
    var n := |RawDataPrefix|;
    assert |p| == |q|;
    assert ProgramLink(p)[n..n + |p|] == p;
    assert ProgramLink(q)[n..n + |q|] == q;
  }
}

=== FILE: program_diff.dfy ===
/** `diff_in_programs`: the positional scan that reports one changed
    attribute of a program record. */
module ProgramDiff {
  import opened Wrappers
  import opened PyJson

  /** The dict `diff_in_programs` returns. `modified_attribute` and
      `changed_value` are passed through Python `str()` for the message
      text only; the model keeps the key and the raw value. */
  datatype Change = Change(programName: Json, attribute: string, newValue: Json)

  /** `.keys()` / `.values()` on something that is not a dict. */
  datatype Error = AttributeError

  function Min(a: nat, b: nat): nat {
    if a <= b then a else b
  }

  /** The values at positions `lo` up to `hi` are pairwise equal. */
  predicate AgreeBetween(oldRec: Record, newRec: Record, lo: nat, hi: nat)
    requires hi <= |oldRec| && hi <= |newRec|
  {
    forall j :: lo <= j < hi ==> PyEq(newRec[j].value, oldRec[j].value)
  }

  /** Position `k` is the first position where the new value differs from
      the old value at the same position. */
  predicate IsFirstMismatch(oldRec: Record, newRec: Record, k: nat) {
    && k < |oldRec| && k < |newRec|
    && !PyEq(newRec[k].value, oldRec[k].value)
    && AgreeBetween(oldRec, newRec, 0, k)
  }

  /** The `name` value among the first `n` fields of the new record, or the
      initial `""` when none of them is keyed `name`. */
  function NameSeen(newRec: Record, n: nat): Json
    requires n <= |newRec|
  {
    Lookup(newRec[..n], "name").GetOr(Str(""))
  }

  /** One step of the loop over `zip(new.keys(), old.values(), new.values())`,
      from position `i` on, with `name` the `program_name` tracked so far. */
  function ScanFrom(oldRec: Record, newRec: Record, i: nat, name: Json): (r: Option<Change>)
    requires i <= |oldRec| && i <= |newRec|
    ensures r.None? <==> AgreeBetween(oldRec, newRec, i, Min(|oldRec|, |newRec|))
    decreases |newRec| - i
  {
    if i == |oldRec| || i == |newRec| then None
    else
      var name' := if newRec[i].key == "name" then newRec[i].value else name;
      if !PyEq(newRec[i].value, oldRec[i].value) then
        Some(Change(name', newRec[i].key, newRec[i].value))
      else
        ScanFrom(oldRec, newRec, i + 1, name')
  }

  /** `diff_in_programs(old_value, new_value)`: `None` when the two values are
      equal, otherwise the first positional mismatch of the zip scan (`None`
      when the scan finds none); raises when a value that differs is not a
      dict. */
  function DiffInPrograms(oldValue: Json, newValue: Json): (r: Result<Option<Change>, Error>)
    ensures PyEq(oldValue, newValue) ==> r == Success(None)
    ensures r.Failure? <==> !PyEq(oldValue, newValue) && !(oldValue.Obj? && newValue.Obj?)
    ensures oldValue.Obj? && newValue.Obj? ==>
      (r == Success(None) <==>
         || PyEq(oldValue, newValue)
         || AgreeBetween(oldValue.fields, newValue.fields, 0,
                         Min(|oldValue.fields|, |newValue.fields|)))
  {
    if PyEq(oldValue, newValue) then Success(None)
    else if newValue.Obj? && oldValue.Obj? then
      Success(ScanFrom(oldValue.fields, newValue.fields, 0, Str("")))
    else Failure(AttributeError)
  }

  /** Passing field `i` updates the tracked name exactly when its key is
      `name`. */
  lemma NameSeenStep(newRec: Record, i: nat)
    requires DistinctKeys(newRec)
    requires i < |newRec|
    ensures NameSeen(newRec, i + 1) ==
      if newRec[i].key == "name" then newRec[i].value else NameSeen(newRec, i)
  {
    assert newRec[..i + 1] == newRec[..i] + [newRec[i]];
    LookupSnoc(newRec[..i], newRec[i], "name");
    if newRec[i].key == "name" && "name" in KeySet(newRec[..i]) {
      var j := KeyIndex(newRec[..i], "name");
    }
  }

  /** When the `name` key sits at a position up to `k` (the changed key
      itself included), the name reported is the new record's `name` value. */
  lemma NameSeenAfterNameKey(newRec: Record, k: nat, p: nat)
    requires DistinctKeys(newRec)
    requires p <= k < |newRec|
    requires newRec[p].key == "name"
    ensures NameSeen(newRec, k + 1) == newRec[p].value
  {
    assert newRec[..k + 1][p] == newRec[p];
    LookupAt(newRec[..k + 1], p);
  }

  /** When no key up to position `k` is `name`, the name reported is the
      initial `""`. */
  lemma NameSeenBeforeNameKey(newRec: Record, k: nat)
    requires k < |newRec|
    requires forall p :: 0 <= p <= k ==> newRec[p].key != "name"
    ensures NameSeen(newRec, k + 1) == Str("")
  {
    if "name" in KeySet(newRec[..k + 1]) {
      var j := KeyIndex(newRec[..k + 1], "name");
    }
  }

  /** The scan stops at the first mismatch at or after `i`, reporting its key,
      its new value, and the name seen up to and including it. */
  lemma {:induction false} ScanFindsFirstMismatch(oldRec: Record, newRec: Record, i: nat, k: nat)
    requires DistinctKeys(newRec)
    requires i <= k && k < |oldRec| && k < |newRec|
    requires AgreeBetween(oldRec, newRec, i, k)
    requires !PyEq(newRec[k].value, oldRec[k].value)
    ensures ScanFrom(oldRec, newRec, i, NameSeen(newRec, i))
         == Some(Change(NameSeen(newRec, k + 1), newRec[k].key, newRec[k].value))
    decreases k - i
  {
    NameSeenStep(newRec, i);
    if i < k {
      ScanFindsFirstMismatch(oldRec, newRec, i + 1, k);
    }
  }

  /** Whatever the scan reports is the key and new value at a mismatching
      position, all positions before it (from `i`) agreeing. */
  lemma {:induction false} ScanResultPosition(oldRec: Record, newRec: Record, i: nat, name: Json)
    returns (k: nat)
    requires i <= |oldRec| && i <= |newRec|
    requires ScanFrom(oldRec, newRec, i, name).Some?
    ensures i <= k && k < |oldRec| && k < |newRec|
    ensures AgreeBetween(oldRec, newRec, i, k)
    ensures !PyEq(newRec[k].value, oldRec[k].value)
    ensures ScanFrom(oldRec, newRec, i, name).value.attribute == newRec[k].key
    ensures ScanFrom(oldRec, newRec, i, name).value.newValue == newRec[k].value
    decreases |newRec| - i
  {
    if !PyEq(newRec[i].value, oldRec[i].value) {
      k := i;
    } else {
      var name' := if newRec[i].key == "name" then newRec[i].value else name;
      k := ScanResultPosition(oldRec, newRec, i + 1, name');
    }
  }

  /** Two unequal records produce the change at their first positional
      mismatch. */
  lemma DiffReportsFirstMismatch(oldRec: Record, newRec: Record, k: nat)
    requires DistinctKeys(newRec)
    requires !PyEq(Obj(oldRec), Obj(newRec))
    requires IsFirstMismatch(oldRec, newRec, k)
    ensures DiffInPrograms(Obj(oldRec), Obj(newRec))
         == Success(Some(Change(NameSeen(newRec, k + 1), newRec[k].key, newRec[k].value)))
  {
    assert newRec[..0] == [];
    ScanFindsFirstMismatch(oldRec, newRec, 0, k);
  }

  /** Conversely, every change reported comes from the first positional
      mismatch, at a position below the length of both records. */
  lemma DiffResultIsFirstMismatch(oldRec: Record, newRec: Record, c: Change)
    requires DistinctKeys(newRec)
    requires DiffInPrograms(Obj(oldRec), Obj(newRec)) == Success(Some(c))
    ensures exists k: nat :: IsFirstMismatch(oldRec, newRec, k)
                     && c == Change(NameSeen(newRec, k + 1), newRec[k].key, newRec[k].value)
  {
    var k := ScanResultPosition(oldRec, newRec, 0, Str(""));
    DiffReportsFirstMismatch(oldRec, newRec, k);
  }

  /** Records holding the same key/value pairs in any order never report a
      change. */
  lemma SameEntriesNoChange(oldRec: Record, newRec: Record)
    requires WellFormed(Obj(oldRec)) && WellFormed(Obj(newRec))
    requires AsDict(oldRec) == AsDict(newRec)
    ensures DiffInPrograms(Obj(oldRec), Obj(newRec)) == Success(None)
  {
    SameEntriesIsPyEq(oldRec, newRec);
  }

  /** Positions beyond the shorter record are never inspected: fields added
      (or removed) at the end make the dicts unequal yet report nothing. */
  lemma TrailingFieldsIgnored(oldRec: Record, extra: Record)
    requires WellFormed(Obj(oldRec))
    requires extra != []
    ensures !PyEq(Obj(oldRec), Obj(oldRec + extra))
    ensures DiffInPrograms(Obj(oldRec), Obj(oldRec + extra)) == Success(None)
    ensures DiffInPrograms(Obj(oldRec + extra), Obj(oldRec)) == Success(None)
  {
    forall j | 0 <= j < |oldRec|
      ensures PyEq(oldRec[j].value, oldRec[j].value)
    {
      PyEqReflexive(oldRec[j].value);
    }
    assert AgreeBetween(oldRec, oldRec + extra, 0, |oldRec|);
    assert AgreeBetween(oldRec + extra, oldRec, 0, |oldRec|);
  }

  /** Values are paired by position, not by key: when the new record lists
      its keys in another order, an attribute whose value did not change is
      reported as the changed one. */
  lemma ReorderedKeysMisreport()
    ensures var oldRec := [Field("a", Num(1)), Field("b", Num(2))];
            var newRec := [Field("b", Num(2)), Field("a", Num(3))];
            && Lookup(oldRec, "b") == Lookup(newRec, "b")
            && DiffInPrograms(Obj(oldRec), Obj(newRec))
               == Success(Some(Change(Str(""), "b", Num(2))))
  {
    var oldRec := [Field("a", Num(1)), Field("b", Num(2))];
    var newRec := [Field("b", Num(2)), Field("a", Num(3))];
    assert Lookup(newRec, "a") == Some(Num(3));
    assert !PyEq(oldRec[0].value, Lookup(newRec, oldRec[0].key).value);
  }
}

=== FILE: program_pass.dfy ===
/** The body of the per-platform loop in `update_programs_database`: compare
    the cached and the fetched snapshot, report every record change, save. */
module ProgramPass {
  import opened Wrappers
  import opened PyJson
  import opened ProgramDiff
  import opened Notification

  /** What the zip loop produced before it ended: the non-`None` results of
      `diff_in_programs`, in order, and whether a call raised (which leaves
      the loop and skips the save). */
  datatype PassResult = PassResult(responses: seq<Change>, raised: bool)

  /** `for old, new in zip(old_file, new_file)`, keeping the changes that
      `diff_in_programs` returns. */
  function ZipResponses(oldFile: seq<Json>, newFile: seq<Json>): (r: PassResult)
    ensures |r.responses| <= Min(|oldFile|, |newFile|)
    decreases |oldFile|
  {
    if oldFile == [] || newFile == [] then PassResult([], false)
    else
      var rest := ZipResponses(oldFile[1..], newFile[1..]);
      match DiffInPrograms(oldFile[0], newFile[0])
      case Failure(_) => PassResult([], true)
      case Success(None) => rest
      case Success(Some(c)) => PassResult([c] + rest.responses, rest.raised)
  }

  /** The pass raises exactly when some aligned pair makes
      `diff_in_programs` raise, and every change it reports is the result of
      `diff_in_programs` on one aligned pair. */
  lemma {:induction false} ZipResponsesSound(oldFile: seq<Json>, newFile: seq<Json>)
    ensures ZipResponses(oldFile, newFile).raised <==>
      exists i :: 0 <= i < Min(|oldFile|, |newFile|) && DiffInPrograms(oldFile[i], newFile[i]).Failure?
    ensures forall c :: c in ZipResponses(oldFile, newFile).responses ==>
      exists i :: 0 <= i < Min(|oldFile|, |newFile|) && DiffInPrograms(oldFile[i], newFile[i]) == Success(Some(c))
    decreases |oldFile|
  {
    if oldFile != [] && newFile != [] {
      ZipResponsesSound(oldFile[1..], newFile[1..]);
      assert forall i :: 0 <= i < Min(|oldFile|, |newFile|) - 1 ==>
        oldFile[1..][i] == oldFile[i + 1] && newFile[1..][i] == newFile[i + 1];
      assert forall i :: 1 <= i < Min(|oldFile|, |newFile|) ==>
        oldFile[i] == oldFile[1..][i - 1] && newFile[i] == newFile[1..][i - 1];
    }
  }

  /** When the pass does not raise, it misses no change: the result of every
      aligned pair that reports one is among the responses. */
  lemma {:induction false} ZipResponsesComplete(oldFile: seq<Json>, newFile: seq<Json>, i: nat)
    requires i < Min(|oldFile|, |newFile|)
    requires !ZipResponses(oldFile, newFile).raised
    requires DiffInPrograms(oldFile[i], newFile[i]).Success?
    requires DiffInPrograms(oldFile[i], newFile[i]).value.Some?
    ensures DiffInPrograms(oldFile[i], newFile[i]).value.value in ZipResponses(oldFile, newFile).responses
    decreases i
  {
    if i > 0 {
      assert oldFile[1..][i - 1] == oldFile[i] && newFile[1..][i - 1] == newFile[i];
      ZipResponsesComplete(oldFile[1..], newFile[1..], i - 1);
    }
  }

  /** The pass over two concatenated snapshot lists is the pass over the
      first pair followed, unless that raised, by the pass over the second:
      changes come out in record order and the loop stops at the first
      record that raises. */
  lemma {:induction false} ZipResponsesAppend(o1: seq<Json>, n1: seq<Json>, o2: seq<Json>, n2: seq<Json>)
    requires |o1| == |n1|
    ensures ZipResponses(o1 + o2, n1 + n2) ==
      var first := ZipResponses(o1, n1);
      if first.raised then first
      else var second := ZipResponses(o2, n2);
           PassResult(first.responses + second.responses, second.raised)
    decreases |o1|
  {
    if o1 != [] {
      assert (o1 + o2)[1..] == o1[1..] + o2;
      assert (n1 + n2)[1..] == n1[1..] + n2;
      ZipResponsesAppend(o1[1..], n1[1..], o2, n2);
    } else {
      assert o1 + o2 == o2;
      assert n1 + n2 == n2;
    }
  }

  /** The observable effect of one platform's pass: what was posted, which
      changes were found, and the snapshot written back, if any. */
  datatype ProgramRun = ProgramRun(notices: seq<Notice>, responses: seq<Change>, saved: Option<seq<Json>>)

  function ProgramArgs(cs: seq<Change>): (args: seq<Arg>)
    ensures |args| == |cs|
    ensures forall i :: 0 <= i < |cs| ==> args[i] == ProgramArg(cs[i])
  {
    seq(|cs|, i requires 0 <= i < |cs| => ProgramArg(cs[i]))
  }

  /** The messages posted for a list of changes are exactly the program
      messages of the changes whose name is truthy. */
  lemma ProgramNotices(cs: seq<Change>)
    ensures forall n :: n in Notify(ProgramArgs(cs)) ==> n.ProgramNotice? && Truthy(n.programName)
    ensures forall c :: c in cs && Truthy(c.programName) ==>
      ProgramNotice(c.programName, c.attribute, c.newValue) in Notify(ProgramArgs(cs))
  {
    var args := ProgramArgs(cs);
    forall n | n in Notify(args)
      ensures n.ProgramNotice? && Truthy(n.programName)
    {
      var a :| a in args && Classify(a) == Some(n);
    }
    forall c | c in cs && Truthy(c.programName)
      ensures ProgramNotice(c.programName, c.attribute, c.newValue) in Notify(args)
    {
      var k :| 0 <= k < |cs| && cs[k] == c;
      assert args[k] == ProgramArg(c) && args[k] in args;
      assert Classify(args[k]) == Some(ProgramNotice(c.programName, c.attribute, c.newValue));
    }
  }

  /** `ZipResponsesComplete` for every aligned pair at once. */
  lemma ZipResponsesAllFound(oldFile: seq<Json>, newFile: seq<Json>)
    ensures forall i :: !ZipResponses(oldFile, newFile).raised && 0 <= i < Min(|oldFile|, |newFile|)
                        && DiffInPrograms(oldFile[i], newFile[i]).Success?
                        && DiffInPrograms(oldFile[i], newFile[i]).value.Some?
                        ==> DiffInPrograms(oldFile[i], newFile[i]).value.value in ZipResponses(oldFile, newFile).responses
  {
    forall i | !ZipResponses(oldFile, newFile).raised && 0 <= i < Min(|oldFile|, |newFile|)
               && DiffInPrograms(oldFile[i], newFile[i]).Success?
               && DiffInPrograms(oldFile[i], newFile[i]).value.Some?
      ensures DiffInPrograms(oldFile[i], newFile[i]).value.value in ZipResponses(oldFile, newFile).responses
    {
      ZipResponsesComplete(oldFile, newFile, i);
    }
  }

  /** One platform of `update_programs_database`. `changed` stands for the
      `DeepDiff` verdict on the two snapshots. When it reports a difference,
      every change is handed to `send_notification` and the new snapshot is
      saved, unless some `diff_in_programs` call raised. */
  function UpdateProgram(changed: (seq<Json>, seq<Json>) -> bool, oldFile: seq<Json>, newFile: seq<Json>)
    : (r: ProgramRun)
    ensures r.saved.Some? <==>
      changed(oldFile, newFile)
      && forall i :: 0 <= i < Min(|oldFile|, |newFile|) ==> DiffInPrograms(oldFile[i], newFile[i]).Success?
    ensures r.saved.Some? ==> r.saved.value == newFile
    ensures !changed(oldFile, newFile) ==> r.responses == [] && r.notices == []
    ensures |r.notices| <= |r.responses| <= Min(|oldFile|, |newFile|)
    ensures forall n :: n in r.notices ==> n.ProgramNotice? && Truthy(n.programName)
    ensures forall c :: c in r.responses && Truthy(c.programName) ==>
      ProgramNotice(c.programName, c.attribute, c.newValue) in r.notices
    ensures forall i :: r.saved.Some? && 0 <= i < Min(|oldFile|, |newFile|)
                        && DiffInPrograms(oldFile[i], newFile[i]).Success?
                        && DiffInPrograms(oldFile[i], newFile[i]).value.Some?
                        ==> DiffInPrograms(oldFile[i], newFile[i]).value.value in r.responses
    ensures forall c :: c in r.responses ==>
      exists i :: 0 <= i < Min(|oldFile|, |newFile|) && DiffInPrograms(oldFile[i], newFile[i]) == Success(Some(c))
    ensures changed(oldFile, newFile) ==> r.responses == ZipResponses(oldFile, newFile).responses
    ensures r.notices == Notify(ProgramArgs(r.responses))
  {
    if !changed(oldFile, newFile) then ProgramRun([], [], None)
    else
      var pass := ZipResponses(oldFile, newFile);
      ZipResponsesSound(oldFile, newFile);
      var args := ProgramArgs(pass.responses);
      var notices := Notify(args);
      ProgramNotices(pass.responses);
      ZipResponsesAllFound(oldFile, newFile);
      ProgramRun(notices, pass.responses, if pass.raised then None else Some(newFile))
  }
}

=== FILE: py_json.dfy ===
/** The values `json.loads` produces, and the Python semantics the change
    detector relies on: dictionary lookup, `==` and truthiness. */
module PyJson {
  import opened Wrappers

  /** A decoded JSON value. Objects keep their keys in insertion order, the
      order in which a Python dict yields `keys()` and `values()`. */
  datatype Json =
    | Null
    | Bool(b: bool)
    | Num(n: int)
    | Str(s: string)
    | Arr(items: seq<Json>)
    | Obj(fields: seq<Field>)

  datatype Field = Field(key: string, value: Json)

  /** A program record: the key/value pairs of one JSON object, in order. */
  type Record = seq<Field>

  /** The set of keys of a record. */
  function KeySet(r: Record): (ks: set<string>)
    ensures forall i :: 0 <= i < |r| ==> r[i].key in ks
  {
    if r == [] then {} else {r[0].key} + KeySet(r[1..])
  }

  /** Every key of a record sits at some position. */
  lemma {:induction false} KeyIndex(r: Record, k: string) returns (i: nat)
    requires k in KeySet(r)
    ensures i < |r| && r[i].key == k
  {
    if r[0].key == k {
      i := 0;
    } else {
      var j := KeyIndex(r[1..], k);
      i := j + 1;
    }
  }

  /** Python dict keys are unique. */
  predicate DistinctKeys(r: Record) {
    forall i, j :: 0 <= i < j < |r| ==> r[i].key != r[j].key
  }

  /** Every object nested anywhere in `j` has distinct keys, as every value
      built by `json.loads` does. */
  predicate WellFormed(j: Json)
    decreases j
  {
    match j
    case Arr(xs) => forall i :: 0 <= i < |xs| ==> WellFormed(xs[i])
    case Obj(fs) => DistinctKeys(fs) && forall i :: 0 <= i < |fs| ==> WellFormed(fs[i].value)
    case _ => true
  }

  /** `d.get(k)`: the value stored under `k`, if any. */
  function Lookup(r: Record, k: string): (v: Option<Json>)
    ensures v.Some? <==> k in KeySet(r)
  {
    if r == [] then None
    else if r[0].key == k then Some(r[0].value)
    else Lookup(r[1..], k)
  }

  /** The record viewed as a dict, forgetting key order. */
  function AsDict(r: Record): map<string, Json> {
    map k | k in KeySet(r) :: Lookup(r, k).value
  }

  /** True and False take part in numeric comparison as 1 and 0. */
  function Numeric(j: Json): int
    requires j.Bool? || j.Num?
  {
    if j.Bool? then (if j.b then 1 else 0) else j.n
  }

  /** Python `a == b` on decoded JSON: lists compare element by element,
      dicts compare as maps (same size, every key of `a` present in `b` with
      an equal value), and `True == 1`, `False == 0`. */
  function PyEq(a: Json, b: Json): (r: bool)
    ensures r ==> && (a.Null? <==> b.Null?)
                  && (a.Str? <==> b.Str?)
                  && (a.Arr? <==> b.Arr?)
                  && (a.Obj? <==> b.Obj?)
    ensures r ==> Truthy(a) == Truthy(b)
    decreases a
  {
    match a
    case Null => b.Null?
    case Bool(_) => (b.Bool? || b.Num?) && Numeric(a) == Numeric(b)
    case Num(_) => (b.Bool? || b.Num?) && Numeric(a) == Numeric(b)
    case Str(s) => b.Str? && b.s == s
    case Arr(xs) =>
      && b.Arr?
      && |xs| == |b.items|
      && forall i :: 0 <= i < |xs| ==> PyEq(xs[i], b.items[i])
    case Obj(fs) =>
      && b.Obj?
      && |fs| == |b.fields|
      && forall i :: 0 <= i < |fs| ==>
           var v := Lookup(b.fields, fs[i].key);
           v.Some? && PyEq(fs[i].value, v.value)
  }

  /** Python `bool(j)`. */
  function Truthy(j: Json): (r: bool)
    ensures !r <==> j in {Null, Bool(false), Num(0), Str(""), Arr([]), Obj([])}
  {
    match j
    case Null => false
    case Bool(b) => b
    case Num(n) => n != 0
    case Str(s) => s != ""
    case Arr(xs) => xs != []
    case Obj(fs) => fs != []
  }

  /** With distinct keys, looking up the key at position `i` finds the value
      at position `i`. */
  lemma {:induction false} LookupAt(r: Record, i: nat)
    requires DistinctKeys(r)
    requires i < |r|
    ensures Lookup(r, r[i].key) == Some(r[i].value)
    decreases i
  {
    if i > 0 {
      assert r[0].key != r[i].key;
      assert DistinctKeys(r[1..]);
      LookupAt(r[1..], i - 1);
    }
  }

  /** Appending one field after `r` only matters for a key `r` lacks. */
  lemma {:induction false} LookupSnoc(r: Record, f: Field, k: string)
    ensures Lookup(r + [f], k) ==
      if k in KeySet(r) then Lookup(r, k)
      else if f.key == k then Some(f.value)
      else None
  {
    if r != [] {
      assert (r + [f])[1..] == r[1..] + [f];
      LookupSnoc(r[1..], f, k);
    }
  }

  /** A dict with distinct keys has as many entries as the record has fields. */
  lemma {:induction false} AsDictSize(r: Record)
    requires DistinctKeys(r)
    ensures |AsDict(r)| == |r|
  {
    assert AsDict(r).Keys == KeySet(r);
    KeySetSize(r);
  }

  /** With distinct keys, a record has as many keys as fields. */
  lemma {:induction false} KeySetSize(r: Record)
    requires DistinctKeys(r)
    ensures |KeySet(r)| == |r|
  {
    if r != [] {
      assert DistinctKeys(r[1..]);
      KeySetSize(r[1..]);
      if r[0].key in KeySet(r[1..]) {
        var i := KeyIndex(r[1..], r[0].key);
      }
    }
  }

  /** Python `==` is reflexive on every value `json.loads` builds. */
  lemma {:induction false} PyEqReflexive(a: Json)
    requires WellFormed(a)
    ensures PyEq(a, a)
    decreases a
  {
    match a
    case Arr(xs) =>
      forall i | 0 <= i < |xs|
        ensures PyEq(xs[i], xs[i])
      {
        PyEqReflexive(xs[i]);
      }
    case Obj(fs) =>
      forall i | 0 <= i < |fs|
        ensures Lookup(fs, fs[i].key) == Some(fs[i].value)
        ensures PyEq(fs[i].value, fs[i].value)
      {
        LookupAt(fs, i);
        PyEqReflexive(fs[i].value);
      }
    case _ =>
  }

  /** Two records that hold the same key/value pairs, in whatever order, are
      equal as Python dicts. */
  lemma SameEntriesIsPyEq(oldRec: Record, newRec: Record)
    requires WellFormed(Obj(oldRec)) && WellFormed(Obj(newRec))
    requires AsDict(oldRec) == AsDict(newRec)
    ensures PyEq(Obj(oldRec), Obj(newRec))
  {
    AsDictSize(oldRec);
    AsDictSize(newRec);
    forall i | 0 <= i < |oldRec|
      ensures Lookup(newRec, oldRec[i].key) == Some(oldRec[i].value)
      ensures PyEq(oldRec[i].value, oldRec[i].value)
    {
      var k := oldRec[i].key;
      LookupAt(oldRec, i);
      assert k in AsDict(oldRec) && AsDict(oldRec)[k] == oldRec[i].value;
      assert k in KeySet(newRec) && AsDict(newRec)[k] == Lookup(newRec, k).value;
      PyEqReflexive(oldRec[i].value);
    }
  }
}

=== FILE: wrappers.dfy ===
/** `Option` for the Python functions that may return `None`, `Result` for
    the ones that may raise. */
module Wrappers {

  datatype Option<+T> = None | Some(value: T) {

    /** The wrapped value, or `default` when there is none. */
    function GetOr(default: T): T {
      match this
      case Some(v) => v
      case None => default
    }
  }

  datatype Result<+T, +E> = Success(value: T) | Failure(error: E)
}
